=== FILE: README.md ===
# Cloudflare client library: parameter store and dispatch

This project models the `Cloudflare` class of the PHP client library for
Cloudflare's JSON client API (`cloudflare.php`). The class keeps one
parameter array for its whole lifetime. The constructor seeds the array with
the credentials (`tkn`, `email`). Each public action writes its own keys into
the array (always the action name `a`, usually the zone `z`, sometimes
`v`, `interval`, `hours`, `class`, `geo`, `ip`, `url`, `zid` or `key`) and then
calls `_request`. The array is never cleared, so a key an action does not
write is sent with whatever value an earlier call left in it.

`_request` works on a copy of the array:

- it substitutes the default zone;
- it POSTs the copy to the fixed endpoint;
- it replaces the reply with an error object unless the status is 200;
- when a log directory is configured, it appends the result to a per-action,
  per-day file.

Modules:

- `Wire` (`wire.dfy`): parameter values (string, integer or NULL), the
  transport's reply, the result (`Body` or `ErrorJson`), a log write and one
  dispatch (`Exchange`).
- `Dispatching` (`dispatching.dfy`): the non-network parts of `_request`.
  These are zone defaulting, outcome classification and the log-file name,
  plus the pure `Dispatch` that combines them.
- `Actions` (`actions.dfy`): one `Action` per public method. `Apply` gives the
  store after that action, `Run` the store after a sequence of actions, and
  lemmas cover stale keys, credentials and the `mod_cache_level` defect.
- `Client` (`client.dfy`): the class `Cloudflare` itself. The field `params`
  is updated in place by `SetParam` and the sixteen action methods, and
  `Request` reads it without changing it. Every action method except
  `ModZoneGrab` is proved to leave `params == Apply(old(params), act)` and to
  return `Dispatch(params, …)`. `ModZoneGrab` without a zone id makes two
  dispatches. It leaves `Apply(Apply(old(params), ZonesActive(None)),
  ZoneGrab(lookupId))` and returns the lookup's dispatch as well. A ghost history keeps the invariant
  `params == Run(InitialParams(token, email), history)`.

The transport is an input. Each dispatching method takes a `Reply`: the HTTP
status code, the body and cURL's error string. It also takes the date string
that `date("Y-m-d")` would produce. `ModZoneGrab` takes a second reply and a
second date for its lookup, because each dispatch reads the clock itself. The
action's own arguments follow, with the defaults the library declares. Examples
are interval 40, 24 hours, class "r", geo 0, level "med" or "basic", switch 0
and a NULL zone. The result records:

- the fields sent;
- the value returned;
- the log write, as file name and data.

One behaviour follows the code exactly, where a reader might expect otherwise:
zone defaulting (`cloudflare.php:55-57`) uses two nested conditions. The
default zone is used only when `z` is present and NULL. An absent `z` stays
absent and is not defaulted.

One configuration point becomes an input. `_log_path` has no setter: the
library expects users to edit its declaration (line 18), which is NULL as
shipped. The model takes it as a fourth constructor argument, `logPath`,
which defaults to `None` like the other three, so that the logging branch can
be reached.

## Model

| member | source | states |
|---|---|---|
| `Client.Cloudflare.constructor` | cloudflare.php:30-36 | each credential is the argument when given and the built-in placeholder otherwise; the default zone is only what is supplied; the store holds exactly `tkn` and `email` |
| `Client.Cloudflare.CredentialsKept` | cloudflare.php:30-36 | in every reachable state the store still holds the constructor's `tkn` and `email` |
| `Client.Cloudflare.SetParam` | cloudflare.php:43 | the new store is the old one with exactly `key` set to `value`; no other key changes |
| `Client.Cloudflare.Request` | cloudflare.php:51-86 | the exchange is `Dispatch` of the current store; the method has no `modifies`, so the stored parameters are never changed by dispatch |
| `Client.Cloudflare.GetStats` | cloudflare.php:106-112 | store becomes `Apply(old, Stats)` (`a`, `z`, `interval`); invariant kept; result is the dispatch of the new store |
| `Client.Cloudflare.GetZonesAll` | cloudflare.php:118-122 | only `a` changes (`zone_load_multi`); result is the dispatch of the new store |
| `Client.Cloudflare.GetDnsRecords` | cloudflare.php:129-134 | `a` and `z` change; result is the dispatch of the new store |
| `Client.Cloudflare.GetZonesActive` | cloudflare.php:141-146 | `a` (`zone_check`) and `z` change; result is the dispatch of the new store |
| `Client.Cloudflare.GetIPsRecent` | cloudflare.php:162-176 | `a`, `hours`, `z` always change; `class` and `geo` only under their conditions |
| `Client.Cloudflare.GetIPsScore` | cloudflare.php:184-189 | `a` (`ip_lkup`) and `ip` change |
| `Client.Cloudflare.ModSecurityLevel` | cloudflare.php:204-210 | `a`, `z` and `v` (the level) change |
| `Client.Cloudflare.ModCacheLevel` | cloudflare.php:222-227 | `a` and `z` change; `v` is exactly as before the call, so the level is never sent |
| `Client.Cloudflare.ModDevMode` | cloudflare.php:236-242 | `a`, `z` and `v` (the switch) change |
| `Client.Cloudflare.ModPurgeCache` | cloudflare.php:251-257 | `a`, `z` and `v = 1` change |
| `Client.Cloudflare.ModPurgeCacheFile` | cloudflare.php:265-271 | `a`, `z` and `url` change |
| `Client.Cloudflare.ModZoneGrab` | cloudflare.php:278-292 | with an id: one dispatch writing `a` and `zid`; without: first a `get_zones_active` dispatch (`a = zone_check`, `z = NULL`), on its own reply and date, then `zone_grab` with the looked-up id |
| `Client.Cloudflare.ModBlacklistIP` | cloudflare.php:299-304 | `a` (`ban`) and `key` change |
| `Client.Cloudflare.ModWhitelistIP` | cloudflare.php:311-316 | `a` (`wl`) and `key` change |
| `Client.Cloudflare.ModUnlistIP` | cloudflare.php:323-328 | `a` (`nul`) and `key` change |
| `Client.Cloudflare.ModIPv6Toggle` | cloudflare.php:336-342 | `a`, `z` and `v` (the switch) change |
| `Client.SecurityLevelRequest` | cloudflare.php:204-210 | a client with default zone `example.com` asked for level `high` without a zone sends exactly `{a: sec_lvl, z: example.com, v: high, tkn, email}`; a non-200 reply returns the error object |
| `Dispatching.WithDefaultZone` | cloudflare.php:53-57 | same keys; `z` takes the default zone only when present and NULL; a non-NULL `z` and every other key are untouched |
| `Dispatching.DefaultingChangesOnlyNullZone` | cloudflare.php:55-57 | the sent copy differs from the store if and only if `z` is present and NULL and a default zone is configured |
| `Dispatching.DefaultingIdempotent` | cloudflare.php:55-57 | defaulting an already defaulted copy changes nothing |
| `Dispatching.Classify` | cloudflare.php:71-76 | the result is the body if and only if the status is 200, and then the body unchanged; otherwise it is the error object holding the transport's error string |
| `Dispatching.ErrorDiscardsBody` | cloudflare.php:75-76 | on a non-200 status the result is `{"error": message}` and does not depend on the body received |
| `Dispatching.LogFileName` | cloudflare.php:62 | the name is the directory, `cloudflare_`, the action, `-`, the date and `.txt`, each at its fixed offset |
| `Dispatching.LogFileNameInjective` | cloudflare.php:62 | with a fixed-width date, two dispatches share a log file if and only if their actions and dates agree |
| `Dispatching.StatsLogFileName` | cloudflare.php:62 | action `stats` on `2024-03-05` logs to `cloudflare_stats-2024-03-05.txt` |
| `Dispatching.Dispatch` | cloudflare.php:51-86 | sends the defaulted copy to the fixed URL and returns the classified reply; a log write happens if and only if a log directory is set; it writes exactly the returned value to the file named from `a` and the date |
| `Actions.ActionName` | cloudflare.php:108-338 | the fixed value each public method stores under `a`, from `stats` to `ipv46`; it is the action the API runs and names the log file |
| `Actions.KnownClass` | cloudflare.php:168 | the class filter `get_IPs_recent` honours: only `r`, `s` or `t` |
| `Actions.Apply` | cloudflare.php:106-342 | the store after one public method's `_set_param` calls; afterwards `a` always holds that method's action name (the key set and the untouched frame are stated by `ApplyFrame`) |
| `Actions.Written` | cloudflare.php:106-342 | every action writes `a`, none writes `tkn` or `email`; `get_IPs_recent` writes `class` if and only if the class is r/s/t, and `geo` if and only if geo is 1; `mod_cache_level` never writes `v` |
| `Actions.ApplyFrame` | cloudflare.php:106-342 | after an action the keys are the old keys plus the written ones, `a` is the action's fixed name, and every unwritten key keeps its value |
| `Actions.ApplyWritesZone` | cloudflare.php:106-342 | every action that takes a zone stores it as given, NULL when omitted |
| `Actions.IPsRecentWrites` | cloudflare.php:162-176 | `hours` and `z` are written; `class` and `geo` are written when their conditions hold and otherwise left exactly as they were, absent ones staying absent |
| `Actions.DefaultArguments` | cloudflare.php:106-342 | calls that omit their arguments write interval 40, 24 hours, class `r` (geo left as it was), level `med`, switch 0 and a NULL zone; `mod_cache_level` sends the same whatever its level |
| `Wire.IsSet` | cloudflare.php:56 | PHP's `isset`: the key is present and its value is not NULL |
| `Wire.ZoneValue` | cloudflare.php:106-109 | the value a zone argument that defaults to NULL puts under `z`: NULL when omitted, the zone string otherwise |
| `Wire.Lookup` | cloudflare.php:62 | defines reading `$params['a']` as PHP does: the stored value when the key is present, NULL when it is absent |
| `Wire.Text` | cloudflare.php:62 | the text `.` makes of a value when building the log file name: a non-negative integer becomes decimal digits denoting exactly that integer, a negative one a minus sign followed by the digits of its absolute value (strings are themselves, NULL is empty) |
| `Wire.DigitsDenote` | cloudflare.php:62 | the decimal text used when an integer is concatenated into the log file name denotes exactly that integer |
| `Actions.InitialParams` | cloudflare.php:35 | the seeded store has exactly the keys `tkn` and `email`, holding the credentials |
| `Actions.RunKeepsCredentials` | cloudflare.php:106-342 | no sequence of actions removes a key or changes `tkn` or `email` |
| `Actions.CredentialsSurvive` | cloudflare.php:35 | after any sequence of calls on a new client, `tkn` and `email` are still the constructor's values |
| `Actions.WrittenIgnoresStore` | cloudflare.php:106-342 | the value an action writes depends only on its arguments, so two calls with the same arguments send the same values for those keys |
| `Actions.ApplyIdempotent` | cloudflare.php:106-342 | calling the same action twice in a row leaves the same store, so it sends the same request |
| `Actions.ApplyPreservesAgreement` | cloudflare.php:106-342 | two stores that agree on a key still agree on it after the same action |
| `Actions.StaleZoneLeaks` | cloudflare.php:106-122 | after `get_stats` with a zone, `get_zones_all` still carries that zone |
| `Actions.StaleIPsRestriction` | cloudflare.php:162-176 | `get_IPs_recent` with class `n` and geo 0 keeps the `class` and `geo` of an earlier call |
| `Actions.IPListChangesOnlyKey` | cloudflare.php:299-328 | the ban, allow and unlist actions change only `a` and `key` |
| `Actions.CacheLevelIgnoresLevel` | cloudflare.php:222-227 | as written, two different cache levels produce identical stores |
| `Actions.CacheLevelSendsNoLevel` | cloudflare.php:222-227 | on a new client, `mod_cache_level("agg")` sends no `v` at all |
| `Actions.IntendedCacheLevel` | cloudflare.php:222-227 | the intended operation writes `a = cache_lvl`, `z` and `v = level`, and leaves every other key unchanged |
| `Actions.IntendedCacheLevelFixesLevel` | cloudflare.php:222-227 | the intended store is the as-written one with `v` set to the level; whatever the client's default zone, the level is what gets sent |
| `Actions.SecurityLevelScenario` | cloudflare.php:204-210 | with default zone `example.com`, `mod_security_level("high")` on a new client sends exactly the credentials, `sec_lvl`, `example.com` and `high` |

## Findings

| source | as written | input that shows it | evidently intended | confidence | as-written member | corrected member |
|---|---|---|---|---|---|---|
| cloudflare.php:222-227 | `mod_cache_level` sets `a` and `z` but never stores `$level`, so no level is sent, or the `v` of an earlier call is sent instead | `mod_cache_level("agg")` on a new client sends no `v`; after `mod_security_level("high")` it sends `v = high` | store the level as `v`, as `mod_security_level` does | high (the docblock documents `$level` as the cache level to set; the API takes that level as `v` for `cache_lvl`); not executed | `Actions.CacheLevelIgnoresLevel`, `Actions.CacheLevelSendsNoLevel` | `Actions.IntendedCacheLevel`, `Actions.IntendedCacheLevelFixesLevel` |

`Client.Cloudflare.ModCacheLevel` keeps the code's behaviour, so that the class
matches the library.

## Left out

- cURL transport: `curl_init`, the `CURLOPT_URL` call, POST, return-transfer, forbid-reuse and SSL-verify options, `curl_exec`, `curl_getinfo` and `curl_close` are network I/O. A `Reply` input gives the status, body and error string. The endpoint itself is modelled: `Dispatch` records `ApiUrl` as the URL of every exchange. The form encoding of the fields is not modelled.
- Audit-log file I/O: `fopen` in append mode, `fwrite` and `fclose` are left out. So is the fatal failure when the directory is missing. The model records only the file name and the data written. `date("Y-m-d")` is an input string.
- JSON text: `json_encode` of the error object is the constructor `ErrorJson(message)`. Its escaping is not modelled.
- Client.Cloudflare.ModZoneGrab: the id found by `json_decode` and `[0][0][0]` on the lookup reply is a separate input (`lookupId`). The model does not tie it to the lookup reply's body.
- The optional `$params` argument of `_request` is left out; no caller passes it.
- Wire.Digits: integer-to-text conversion is reached only if `a` held an integer. No action in the library stores one, so this branch is there for completeness.
- Argument types: action arguments take the types their docblocks give (integers, strings, nullable zone and zone id). PHP's loose `==` in `$class == "r"` and `$geo == 1` on values of other dynamic types is not modelled.
- Concurrency: the class is single-threaded; interleaved use of one client is not modelled.
- The rate-limit remark in the `_request` docblock describes the remote service, not this code.

=== FILE: actions.dfy ===
/**
 What each public action of the client writes into the parameter store, as a
 function on the store, and what follows for sequences of calls: the store is
 never cleared, so every key an action does not write keeps the value the
 previous calls left there.
 */
module Actions {
  import opened Wire
  import opened Dispatching

  /** One call of a public action, with its arguments and the defaults the library declares for them. */
  datatype Action =
    // get_stats
    | Stats(interval: int := 40, zone: Option<string> := None)
    // get_zones_all
    | ZonesAll
    // get_DNS_records
    | DnsRecords(zone: Option<string> := None)
    // get_zones_active
    | ZonesActive(zone: Option<string> := None)
    // get_IPs_recent
    | IPsRecent(hours: int := 24, ipClass: string := "r", geo: int := 0, zone: Option<string> := None)
    // get_IPs_score
    | IPScore(ip: string)
    // mod_security_level
    | SecurityLevel(level: string := "med", zone: Option<string> := None)
    // mod_cache_level
    | CacheLevel(level: string := "basic", zone: Option<string> := None)
    // mod_dev_mode
    | DevMode(switch: int := 0, zone: Option<string> := None)
    // mod_purge_cache
    | PurgeCache(zone: Option<string> := None)
    // mod_purge_cache_file
    | PurgeCacheFile(url: string, zone: Option<string> := None)
    // mod_zone_grab, once its id is known
    | ZoneGrab(zid: Value)
    // mod_blacklist_IP
    | Blacklist(ip: string)
    // mod_whitelist_IP
    | Whitelist(ip: string)
    // mod_unlist_IP
    | Unlist(ip: string)
    // mod_IPv6_toggle
    | IPv6Toggle(switch: int := 0, zone: Option<string> := None)

  /** The value each action puts under `a`. */
  function ActionName(act: Action): string
  {
    match act
    case Stats(_, _) => "stats"
    case ZonesAll => "zone_load_multi"
    case DnsRecords(_) => "rec_load_all"
    case ZonesActive(_) => "zone_check"
    case IPsRecent(_, _, _, _) => "zone_ips"
    case IPScore(_) => "ip_lkup"
    case SecurityLevel(_, _) => "sec_lvl"
    case CacheLevel(_, _) => "cache_lvl"
    case DevMode(_, _) => "devmode"
    case PurgeCache(_) => "fpurge_ts"
    case PurgeCacheFile(_, _) => "zone_file_purge"
    case ZoneGrab(_) => "zone_grab"
    case Blacklist(_) => "ban"
    case Whitelist(_) => "wl"
    case Unlist(_) => "nul"
    case IPv6Toggle(_, _) => "ipv46"
  }

  /** `get_IPs_recent` restricts by class only for regular, crawler or threat. */
  predicate KnownClass(ipClass: string)
  {
    ipClass == "r" || ipClass == "s" || ipClass == "t"
  }

  /**
   The keys an action writes. Every action writes `a`; none writes the
   credentials; `class` and `geo` are written only conditionally.
   */
  function Written(act: Action): (keys: set<string>)
    ensures "a" in keys
    ensures "tkn" !in keys && "email" !in keys
    ensures act.IPsRecent? ==> ("class" in keys <==> KnownClass(act.ipClass))
    ensures act.IPsRecent? ==> ("geo" in keys <==> act.geo == 1)
    ensures act.CacheLevel? ==> "v" !in keys
  {
    match act
    case Stats(_, _) => {"a", "z", "interval"}
    case ZonesAll => {"a"}
    case DnsRecords(_) => {"a", "z"}
    case ZonesActive(_) => {"a", "z"}
    case IPsRecent(_, ipClass, geo, _) =>
      {"a", "hours", "z"} + (if KnownClass(ipClass) then {"class"} else {}) + (if geo == 1 then {"geo"} else {})
    case IPScore(_) => {"a", "ip"}
    case SecurityLevel(_, _) => {"a", "z", "v"}
    case CacheLevel(_, _) => {"a", "z"}
    case DevMode(_, _) => {"a", "z", "v"}
    case PurgeCache(_) => {"a", "z", "v"}
    case PurgeCacheFile(_, _) => {"a", "z", "url"}
    case ZoneGrab(_) => {"a", "zid"}
    case Blacklist(_) => {"a", "key"}
    case Whitelist(_) => {"a", "key"}
    case Unlist(_) => {"a", "key"}
    case IPv6Toggle(_, _) => {"a", "z", "v"}
  }

  /**
   The store after an action has written its keys, in the order the source
   writes them. `ApplyFrame` states which keys change and which keep their
   values.
   */
  function Apply(p: Params, act: Action): (r: Params)
    ensures "a" in r && r["a"] == Str(ActionName(act))
  {
    var q := p["a" := Str(ActionName(act))];
    match act
    case Stats(interval, zone) => q["z" := ZoneValue(zone)]["interval" := Int(interval)]
    case ZonesAll => q
    case DnsRecords(zone) => q["z" := ZoneValue(zone)]
    case ZonesActive(zone) => q["z" := ZoneValue(zone)]
    case IPsRecent(hours, ipClass, geo, zone) =>
      var q1 := q["hours" := Int(hours)]["z" := ZoneValue(zone)];
      var q2 := if KnownClass(ipClass) then q1["class" := Str(ipClass)] else q1;
      if geo == 1 then q2["geo" := Int(geo)] else q2
    case IPScore(ip) => q["ip" := Str(ip)]
    case SecurityLevel(level, zone) => q["z" := ZoneValue(zone)]["v" := Str(level)]
    case CacheLevel(_, zone) => q["z" := ZoneValue(zone)]
    case DevMode(switch, zone) => q["z" := ZoneValue(zone)]["v" := Int(switch)]
    case PurgeCache(zone) => q["z" := ZoneValue(zone)]["v" := Int(1)]
    case PurgeCacheFile(url, zone) => q["z" := ZoneValue(zone)]["url" := Str(url)]
    case ZoneGrab(zid) => q["zid" := zid]
    case Blacklist(ip) => q["key" := Str(ip)]
    case Whitelist(ip) => q["key" := Str(ip)]
    case Unlist(ip) => q["key" := Str(ip)]
    case IPv6Toggle(switch, zone) => q["z" := ZoneValue(zone)]["v" := Int(switch)]
  }

  /**
   What every action does to the store: the action name is set, exactly the
   written keys are added, and every key the action does not write keeps its
   previous value.
   */
  lemma ApplyFrame(p: Params, act: Action)
    ensures Apply(p, act).Keys == p.Keys + Written(act)
    ensures Apply(p, act)["a"] == Str(ActionName(act))
    ensures forall k :: k in p && k !in Written(act) ==> Apply(p, act)[k] == p[k]
  {
  }

  /** Every action that takes a zone writes it as given, NULL when omitted, for dispatch to default. */
  lemma ApplyWritesZone(p: Params, act: Action)
    requires "z" in Written(act)
    ensures Apply(p, act)["z"] == ZoneValue(act.zone)
  {
  }

  /**
   `get_IPs_recent` always writes `a`, `hours` and `z`; it writes `class` only
   for "r", "s" or "t" and `geo` only when it is 1, and otherwise leaves
   those keys exactly as they were (absent ones stay absent).
   */
  lemma IPsRecentWrites(p: Params, hours: int, ipClass: string, geo: int, zone: Option<string>)
    ensures Apply(p, IPsRecent(hours, ipClass, geo, zone))["hours"] == Int(hours)
    ensures Apply(p, IPsRecent(hours, ipClass, geo, zone))["z"] == ZoneValue(zone)
    ensures KnownClass(ipClass) ==> Apply(p, IPsRecent(hours, ipClass, geo, zone))["class"] == Str(ipClass)
    ensures !KnownClass(ipClass) ==> ("class" in Apply(p, IPsRecent(hours, ipClass, geo, zone)) <==> "class" in p)
    ensures !KnownClass(ipClass) && "class" in p ==> Apply(p, IPsRecent(hours, ipClass, geo, zone))["class"] == p["class"]
    ensures geo == 1 ==> Apply(p, IPsRecent(hours, ipClass, geo, zone))["geo"] == Int(1)
    ensures geo != 1 ==> ("geo" in Apply(p, IPsRecent(hours, ipClass, geo, zone)) <==> "geo" in p)
    ensures geo != 1 && "geo" in p ==> Apply(p, IPsRecent(hours, ipClass, geo, zone))["geo"] == p["geo"]
  {
  }

  /**
   Calls that omit their arguments: `get_stats()` asks for interval 40,
   `get_IPs_recent()` for 24 hours restricted to class "r" without geo data,
   `mod_security_level()` for level "med", the switches are off, and every
   zone is left NULL for dispatch to default.
   */
  lemma DefaultArguments(p: Params)
    ensures Apply(p, Stats())["interval"] == Int(40) && Apply(p, Stats())["z"] == Null
    ensures Apply(p, IPsRecent())["hours"] == Int(24) && Apply(p, IPsRecent())["class"] == Str("r")
    ensures ("geo" in Apply(p, IPsRecent()) <==> "geo" in p)
    ensures Apply(p, SecurityLevel())["v"] == Str("med")
    ensures Apply(p, DevMode())["v"] == Int(0) && Apply(p, IPv6Toggle())["v"] == Int(0)
    ensures Apply(p, CacheLevel()) == Apply(p, CacheLevel("agg"))
  {
  }

  /** The store the constructor builds: exactly the two credential keys. */
  function InitialParams(token: string, email: string): (p: Params)
    ensures p.Keys == {"tkn", "email"}
    ensures p["tkn"] == Str(token) && p["email"] == Str(email)
  {
    map["tkn" := Str(token), "email" := Str(email)]
  }

  /** The store after a sequence of actions, oldest first. */
  function Run(p: Params, acts: seq<Action>): Params
    decreases |acts|
  {
    if |acts| == 0 then p else Apply(Run(p, acts[..|acts| - 1]), acts[|acts| - 1])
  }

  /** Running one more action applies it to the store the earlier ones left. */
  lemma RunSnoc(p: Params, acts: seq<Action>, act: Action)
    ensures Run(p, acts + [act]) == Apply(Run(p, acts), act)
  {
  }

  /** No sequence of actions removes a key or alters the credentials. */
  lemma {:induction false} RunKeepsCredentials(p: Params, acts: seq<Action>)
    requires "tkn" in p && "email" in p
    ensures Run(p, acts).Keys >= p.Keys
    ensures Run(p, acts)["tkn"] == p["tkn"] && Run(p, acts)["email"] == p["email"]
    decreases |acts|
  {
    if |acts| > 0 {
      RunKeepsCredentials(p, acts[..|acts| - 1]);
      ApplyFrame(Run(p, acts[..|acts| - 1]), acts[|acts| - 1]);
    }
  }

  /** After any calls on a client, the credentials are still those the constructor stored. */
  lemma CredentialsSurvive(token: string, email: string, acts: seq<Action>)
    ensures "tkn" in Run(InitialParams(token, email), acts) && Run(InitialParams(token, email), acts)["tkn"] == Str(token)
    ensures "email" in Run(InitialParams(token, email), acts) && Run(InitialParams(token, email), acts)["email"] == Str(email)
  {
    RunKeepsCredentials(InitialParams(token, email), acts);
  }

  /**
   What an action writes depends only on its own arguments: two stores agree
   on every written key afterwards, whatever they held before. Requests for the
   same call differ only in keys the call does not write.
   */
  lemma WrittenIgnoresStore(p: Params, q: Params, act: Action, k: string)
    requires k in Written(act)
    ensures k in Apply(p, act) && k in Apply(q, act) && Apply(p, act)[k] == Apply(q, act)[k]
  {
  }

  /** Repeating an action right away writes nothing new: the store, hence the request, is the same. */
  lemma ApplyIdempotent(p: Params, act: Action)
    ensures Apply(Apply(p, act), act) == Apply(p, act)
  {
  }

  /** Two stores that agree on a key keep agreeing on it after the same action. */
  lemma ApplyPreservesAgreement(p: Params, q: Params, act: Action, k: string)
    requires k in p && k in q && p[k] == q[k]
    ensures Apply(p, act)[k] == Apply(q, act)[k]
  {
  }

  /** A zone one call set leaks into a later call that does not write `z` (here `get_zones_all`). */
  lemma StaleZoneLeaks(p: Params, interval: int, zone: string)
    ensures Apply(Apply(p, Stats(interval, Some(zone))), ZonesAll)["z"] == Str(zone)
  {
  }

  /**
   `get_IPs_recent` with class "n" or geo other than 1 leaves the previous
   `class` and `geo` in place, so the restriction of an earlier call persists.
   */
  lemma StaleIPsRestriction(p: Params, h1: int, h2: int, z1: Option<string>, z2: Option<string>)
    ensures Apply(Apply(p, IPsRecent(h1, "t", 1, z1)), IPsRecent(h2, "n", 0, z2))["class"] == Str("t")
    ensures Apply(Apply(p, IPsRecent(h1, "t", 1, z1)), IPsRecent(h2, "n", 0, z2))["geo"] == Int(1)
  {
  }

  /** The IP-list actions change `a` and `key` and nothing else. */
  lemma IPListChangesOnlyKey(p: Params, act: Action)
    requires act.Blacklist? || act.Whitelist? || act.Unlist?
    ensures forall k :: k in p && k != "a" && k != "key" ==> Apply(p, act)[k] == p[k]
    ensures Apply(p, act)["key"] == Str(act.ip)
  {
  }

  /** As written, `mod_cache_level` ignores its level: two levels give the same store. */
  lemma CacheLevelIgnoresLevel(p: Params, l1: string, l2: string, zone: Option<string>)
    ensures Apply(p, CacheLevel(l1, zone)) == Apply(p, CacheLevel(l2, zone))
  {
  }

  /** Counterexample: on a fresh client, `mod_cache_level("agg")` sends no `v` at all. */
  lemma CacheLevelSendsNoLevel(token: string, email: string)
    ensures "v" !in Apply(InitialParams(token, email), CacheLevel("agg", None))
  {
  }

  /**
   The evidently intended `mod_cache_level`: like `mod_security_level`, it
   writes the level under `v`, so the level sent is always the one asked for.
   */
  function IntendedCacheLevel(p: Params, level: string, zone: Option<string>): (r: Params)
    ensures r.Keys == p.Keys + {"a", "z", "v"}
    ensures r["a"] == Str("cache_lvl") && r["z"] == ZoneValue(zone) && r["v"] == Str(level)
    ensures forall k :: k in p && k !in {"a", "z", "v"} ==> r[k] == p[k]
  {
    p["a" := Str("cache_lvl")]["z" := ZoneValue(zone)]["v" := Str(level)]
  }

  /** The intended version differs from the written one exactly in the level it sends. */
  lemma IntendedCacheLevelFixesLevel(p: Params, level: string, zone: Option<string>, defaultZone: Option<string>)
    ensures IntendedCacheLevel(p, level, zone) == Apply(p, CacheLevel(level, zone))["v" := Str(level)]
    ensures WithDefaultZone(IntendedCacheLevel(p, level, zone), defaultZone)["v"] == Str(level)
  {
  }

  /**
   End to end: a fresh client with default zone "example.com" asked for the
   "high" security level without a zone sends exactly the credentials, the
   action, the default zone and the level.
   */
  lemma SecurityLevelScenario(token: string, email: string)
    ensures WithDefaultZone(Apply(InitialParams(token, email), SecurityLevel("high", None)), Some("example.com"))
         == map["a" := Str("sec_lvl"), "z" := Str("example.com"), "v" := Str("high"),
                "tkn" := Str(token), "email" := Str(email)]
  {
  }
}

=== FILE: client.dfy ===
/**
 The `Cloudflare` client object: its configuration, the parameter store it
 mutates in place, `_set_param`, `_request` (with the transport as an input),
 and the sixteen public actions, each of which writes its keys and dispatches.
 */
module Client {
  import opened Wire
  import opened Dispatching
  import opened Actions

  /** The built-in placeholder credentials used when none are supplied. */
  const PlaceholderToken: string := "your-cloudflare-token"
  const PlaceholderEmail: string := "your-cloudflare-account-email-address"

  /**
   Each action method takes the transport's reply and the date first; the
   action's own arguments follow with the defaults the library declares.
   */
  class Cloudflare {
    /** `_log_path`: the audit-log directory with its trailing slash, or none. */
    const logPath: Option<string>
    /** `_token` and `_email`: the credentials, fixed at construction. */
    const token: string
    const email: string
    /** `_default_zone`: the zone a NULL zone parameter resolves to, or none. */
    const defaultZone: Option<string>
    /** `_params`: the parameter store, never cleared. */
    var params: Params
    /** The actions called so far, oldest first. */
    ghost var history: seq<Action>

    /** The store is what the constructor seeded, updated by every action called since. */
    ghost predicate Valid()
      reads this
    {
      params == Run(InitialParams(token, email), history)
    }

    /**
     Each credential is the supplied one when given and the placeholder
     otherwise; the default zone is only what is supplied; the store holds
     exactly `tkn` and `email`. The log directory stands for the declaration
     of `_log_path`, which the library has its users edit (NULL as shipped).
     */
    constructor (token: Option<string> := None, email: Option<string> := None,
                 defaultZone: Option<string> := None, logPath: Option<string> := None)
      ensures this.token == (if token.Some? then token.value else PlaceholderToken)
      ensures this.email == (if email.Some? then email.value else PlaceholderEmail)
      ensures this.defaultZone == defaultZone && this.logPath == logPath
      ensures params.Keys == {"tkn", "email"}
      ensures params["tkn"] == Str(this.token) && params["email"] == Str(this.email)
      ensures history == [] && Valid()
    {
      var t, m, z := PlaceholderToken, PlaceholderEmail, None;
      if token.Some? { t := token.value; }
      if email.Some? { m := email.value; }
      if defaultZone.Some? { z := defaultZone; }
      this.token, this.email, this.defaultZone, this.logPath := t, m, z, logPath;
      params := map["tkn" := Str(t), "email" := Str(m)];
      history := [];
    }

    /** Whatever has been called, the store still carries the constructor's credentials. */
    lemma CredentialsKept()
      requires Valid()
      ensures "tkn" in params && params["tkn"] == Str(token)
      ensures "email" in params && params["email"] == Str(email)
    {
      CredentialsSurvive(token, email, history);
    }

    /** `_set_param`: upserts one key; every other key keeps its value. */
    method SetParam(key: string, value: Value)
      modifies this`params
      ensures params == old(params)[key := value]
    {
      params := params[key := value];
    }

    /** Records a finished action once the store shows it. */
    ghost method Commit(act: Action)
      requires params == Apply(Run(InitialParams(token, email), history), act)
      modifies this`history
      ensures history == old(history) + [act] && Valid()
    {
      RunSnoc(InitialParams(token, email), history, act);
      history := history + [act];
    }

    /**
     `_request`: sends a copy of the store with the zone defaulted, returns
     the classified reply and, with a log directory, appends that same result
     to the day's file for the action. The store itself is not changed.
     */
    method Request(reply: Reply, date: string) returns (e: Exchange)
      ensures e == Dispatch(params, defaultZone, logPath, reply, date)
    {
      var fields := params;
      if "z" in fields && fields["z"] == Null {
        if !IsSet(fields, "z") {
          fields := fields["z" := ZoneValue(defaultZone)];
        }
      }
      var file := "";
      if logPath.Some? {
        file := LogFileName(logPath.value, Text(Lookup(fields, "a")), date);
      }
      var result := Body(reply.body);
      if reply.status != 200 {
        result := ErrorJson(reply.error);
      }
      var log := None;
      if logPath.Some? {
        log := Some(LogWrite(file, result));
      }
      e := Exchange(ApiUrl, fields, result, log);
    }

    /** get_stats */
    method GetStats(reply: Reply, date: string, interval: int := 40, zone: Option<string> := None) returns (e: Exchange)
      requires Valid()
      modifies this
      ensures Valid() && history == old(history) + [Stats(interval, zone)]
      ensures params == Apply(old(params), Stats(interval, zone))
      ensures e == Dispatch(params, defaultZone, logPath, reply, date)
    {
      SetParam("a", Str("stats"));
      SetParam("z", ZoneValue(zone));
      SetParam("interval", Int(interval));
      Commit(Stats(interval, zone));
      e := Request(reply, date);
    }

    /** get_zones_all */
    method GetZonesAll(reply: Reply, date: string) returns (e: Exchange)
      requires Valid()
      modifies this
      ensures Valid() && history == old(history) + [ZonesAll]
      ensures params == Apply(old(params), ZonesAll)
      ensures e == Dispatch(params, defaultZone, logPath, reply, date)
    {
      SetParam("a", Str("zone_load_multi"));
      Commit(ZonesAll);
      e := Request(reply, date);
    }

    /** get_DNS_records */
    method GetDnsRecords(reply: Reply, date: string, zone: Option<string> := None) returns (e: Exchange)
      requires Valid()
      modifies this
      ensures Valid() && history == old(history) + [DnsRecords(zone)]
      ensures params == Apply(old(params), DnsRecords(zone))
      ensures e == Dispatch(params, defaultZone, logPath, reply, date)
    {
      SetParam("a", Str("rec_load_all"));
      SetParam("z", ZoneValue(zone));
      Commit(DnsRecords(zone));
      e := Request(reply, date);
    }

    /** get_zones_active */
    method GetZonesActive(reply: Reply, date: string, zone: Option<string> := None) returns (e: Exchange)
      requires Valid()
      modifies this
      ensures Valid() && history == old(history) + [ZonesActive(zone)]
      ensures params == Apply(old(params), ZonesActive(zone))
      ensures e == Dispatch(params, defaultZone, logPath, reply, date)
    {
      SetParam("a", Str("zone_check"));
      SetParam("z", ZoneValue(zone));
      Commit(ZonesActive(zone));
      e := Request(reply, date);
    }

    /** get_IPs_recent: `class` and `geo` are written only conditionally. */
    method GetIPsRecent(reply: Reply, date: string, hours: int := 24, ipClass: string := "r", geo: int := 0,
                        zone: Option<string> := None)
      returns (e: Exchange)
      requires Valid()
      modifies this
      ensures Valid() && history == old(history) + [IPsRecent(hours, ipClass, geo, zone)]
      ensures params == Apply(old(params), IPsRecent(hours, ipClass, geo, zone))
      ensures e == Dispatch(params, defaultZone, logPath, reply, date)
    {
      SetParam("a", Str("zone_ips"));
      SetParam("hours", Int(hours));
      SetParam("z", ZoneValue(zone));
      if ipClass == "r" || ipClass == "s" || ipClass == "t" {
        SetParam("class", Str(ipClass));
      }
      if geo == 1 {
        SetParam("geo", Int(geo));
      }
      Commit(IPsRecent(hours, ipClass, geo, zone));
      e := Request(reply, date);
    }

    /** get_IPs_score */
    method GetIPsScore(reply: Reply, date: string, ip: string) returns (e: Exchange)
      requires Valid()
      modifies this
      ensures Valid() && history == old(history) + [IPScore(ip)]
      ensures params == Apply(old(params), IPScore(ip))
      ensures e == Dispatch(params, defaultZone, logPath, reply, date)
    {
      SetParam("a", Str("ip_lkup"));
      SetParam("ip", Str(ip));
      Commit(IPScore(ip));
      e := Request(reply, date);
    }

    /** mod_security_level */
    method ModSecurityLevel(reply: Reply, date: string, level: string := "med", zone: Option<string> := None) returns (e: Exchange)
      requires Valid()
      modifies this
      ensures Valid() && history == old(history) + [SecurityLevel(level, zone)]
      ensures params == Apply(old(params), SecurityLevel(level, zone))
      ensures e == Dispatch(params, defaultZone, logPath, reply, date)
    {
      SetParam("a", Str("sec_lvl"));
      SetParam("z", ZoneValue(zone));
      SetParam("v", Str(level));
      Commit(SecurityLevel(level, zone));
      e := Request(reply, date);
    }

    /** mod_cache_level, as written: the level is never stored, so `v` keeps whatever an earlier call left. */
    method ModCacheLevel(reply: Reply, date: string, level: string := "basic", zone: Option<string> := None) returns (e: Exchange)
      requires Valid()
      modifies this
      ensures Valid() && history == old(history) + [CacheLevel(level, zone)]
      ensures params == Apply(old(params), CacheLevel(level, zone))
      ensures ("v" in params <==> "v" in old(params)) && ("v" in params ==> params["v"] == old(params)["v"])
      ensures e == Dispatch(params, defaultZone, logPath, reply, date)
    {
      SetParam("a", Str("cache_lvl"));
      SetParam("z", ZoneValue(zone));
      Commit(CacheLevel(level, zone));
      e := Request(reply, date);
    }

    /** mod_dev_mode */
    method ModDevMode(reply: Reply, date: string, switch: int := 0, zone: Option<string> := None) returns (e: Exchange)
      requires Valid()
      modifies this
      ensures Valid() && history == old(history) + [DevMode(switch, zone)]
      ensures params == Apply(old(params), DevMode(switch, zone))
      ensures e == Dispatch(params, defaultZone, logPath, reply, date)
    {
      SetParam("a", Str("devmode"));
      SetParam("z", ZoneValue(zone));
      SetParam("v", Int(switch));
      Commit(DevMode(switch, zone));
      e := Request(reply, date);
    }

    /** mod_purge_cache */
    method ModPurgeCache(reply: Reply, date: string, zone: Option<string> := None) returns (e: Exchange)
      requires Valid()
      modifies this
      ensures Valid() && history == old(history) + [PurgeCache(zone)]
      ensures params == Apply(old(params), PurgeCache(zone))
      ensures e == Dispatch(params, defaultZone, logPath, reply, date)
    {
      SetParam("a", Str("fpurge_ts"));
      SetParam("z", ZoneValue(zone));
      SetParam("v", Int(1));
      Commit(PurgeCache(zone));
      e := Request(reply, date);
    }

    /** mod_purge_cache_file */
    method ModPurgeCacheFile(reply: Reply, date: string, url: string, zone: Option<string> := None) returns (e: Exchange)
      requires Valid()
      modifies this
      ensures Valid() && history == old(history) + [PurgeCacheFile(url, zone)]
      ensures params == Apply(old(params), PurgeCacheFile(url, zone))
      ensures e == Dispatch(params, defaultZone, logPath, reply, date)
    {
      SetParam("a", Str("zone_file_purge"));
      SetParam("z", ZoneValue(zone));
      SetParam("url", Str(url));
      Commit(PurgeCacheFile(url, zone));
      e := Request(reply, date);
    }

    /**
     mod_zone_grab. Without a zone id it first calls `get_zones_active` with no
     zone (a dispatch of its own, on its own date, returned as `lookup`) and
     takes the id the caller decodes from that reply, `lookupId`; then it
     dispatches `zone_grab`.
     */
    method ModZoneGrab(reply: Reply, date: string, lookupReply: Reply, lookupDate: string, lookupId: Value,
                       zoneId: Option<int> := None)
      returns (lookup: Option<Exchange>, e: Exchange)
      requires Valid()
      modifies this
      ensures Valid()
      ensures zoneId.Some? ==>
        && lookup.None?
        && history == old(history) + [ZoneGrab(Int(zoneId.value))]
        && params == Apply(old(params), ZoneGrab(Int(zoneId.value)))
      ensures zoneId.None? ==>
        && lookup == Some(Dispatch(Apply(old(params), ZonesActive(None)), defaultZone, logPath, lookupReply, lookupDate))
        && history == old(history) + [ZonesActive(None), ZoneGrab(lookupId)]
        && params == Apply(Apply(old(params), ZonesActive(None)), ZoneGrab(lookupId))
      ensures e == Dispatch(params, defaultZone, logPath, reply, date)
    {
      if zoneId.None? {
        var found := GetZonesActive(lookupReply, lookupDate);
        lookup := Some(found);
        SetParam("a", Str("zone_grab"));
        SetParam("zid", lookupId);
        Commit(ZoneGrab(lookupId));
      } else {
        lookup := None;
        SetParam("a", Str("zone_grab"));
        SetParam("zid", Int(zoneId.value));
        Commit(ZoneGrab(Int(zoneId.value)));
      }
      e := Request(reply, date);
    }

    /** mod_blacklist_IP */
    method ModBlacklistIP(reply: Reply, date: string, ip: string) returns (e: Exchange)
      requires Valid()
      modifies this
      ensures Valid() && history == old(history) + [Blacklist(ip)]
      ensures params == Apply(old(params), Blacklist(ip))
      ensures e == Dispatch(params, defaultZone, logPath, reply, date)
    {
      SetParam("a", Str("ban"));
      SetParam("key", Str(ip));
      Commit(Blacklist(ip));
      e := Request(reply, date);
    }

    /** mod_whitelist_IP */
    method ModWhitelistIP(reply: Reply, date: string, ip: string) returns (e: Exchange)
      requires Valid()
      modifies this
      ensures Valid() && history == old(history) + [Whitelist(ip)]
      ensures params == Apply(old(params), Whitelist(ip))
      ensures e == Dispatch(params, defaultZone, logPath, reply, date)
    {
      SetParam("a", Str("wl"));
      SetParam("key", Str(ip));
      Commit(Whitelist(ip));
      e := Request(reply, date);
    }

    /** mod_unlist_IP */
    method ModUnlistIP(reply: Reply, date: string, ip: string) returns (e: Exchange)
      requires Valid()
      modifies this
      ensures Valid() && history == old(history) + [Unlist(ip)]
      ensures params == Apply(old(params), Unlist(ip))
      ensures e == Dispatch(params, defaultZone, logPath, reply, date)
    {
      SetParam("a", Str("nul"));
      SetParam("key", Str(ip));
      Commit(Unlist(ip));
      e := Request(reply, date);
    }

    /** mod_IPv6_toggle */
    method ModIPv6Toggle(reply: Reply, date: string, switch: int := 0, zone: Option<string> := None) returns (e: Exchange)
      requires Valid()
      modifies this
      ensures Valid() && history == old(history) + [IPv6Toggle(switch, zone)]
      ensures params == Apply(old(params), IPv6Toggle(switch, zone))
      ensures e == Dispatch(params, defaultZone, logPath, reply, date)
    {
      SetParam("a", Str("ipv46"));
      SetParam("z", ZoneValue(zone));
      SetParam("v", Int(switch));
      Commit(IPv6Toggle(switch, zone));
      e := Request(reply, date);
    }
  }

  /**
   A client built with default zone "example.com", asked for the "high"
   security level with no zone, sends exactly its credentials, `sec_lvl`, the
   default zone and the level; a non-200 reply comes back as the error object.
   */
  method SecurityLevelRequest(token: string, email: string, reply: Reply, date: string) returns (e: Exchange)
    ensures e.fields == map["a" := Str("sec_lvl"), "z" := Str("example.com"), "v" := Str("high"),
                            "tkn" := Str(token), "email" := Str(email)]
    ensures reply.status != 200 ==> e.result == ErrorJson(reply.error)
    ensures reply.status == 200 ==> e.result == Body(reply.body)
    ensures e.log.None?
  {
    var client := new Cloudflare(Some(token), Some(email), Some("example.com"));
    e := client.ModSecurityLevel(reply, date, "high");
    SecurityLevelScenario(token, email);
  }
}

=== FILE: dispatching.dfy ===
/**
 The parts of `_request` that are not network or file I/O: defaulting the zone
 on the copy of the parameters that is sent, classifying the transport's
 outcome, and naming the audit-log file.
 */
module Dispatching {
  import opened Wire

  /**
   The copy of the parameters that is POSTed. Only a zone key that is PRESENT
   with a NULL value takes the default zone (which may itself be NULL); an
   absent zone stays absent and a non-NULL zone is never overridden. The
   stored parameters are not touched: PHP copies the array.
   */
  function WithDefaultZone(p: Params, defaultZone: Option<string>): (r: Params)
    ensures r.Keys == p.Keys
    ensures forall k :: k in p && k != "z" ==> r[k] == p[k]
    ensures "z" in p && p["z"] != Null ==> r["z"] == p["z"]
    ensures "z" in p && p["z"] == Null ==> r["z"] == ZoneValue(defaultZone)
  {
    // Two nested conditions; the inner one always holds once the outer one does.
    if "z" in p && p["z"] == Null then
      if !IsSet(p, "z") then p["z" := ZoneValue(defaultZone)] else p
    else
      p
  }

  /** The defaulted copy differs from the stored parameters exactly when the zone is present and NULL (and a default zone exists). */
  lemma DefaultingChangesOnlyNullZone(p: Params, defaultZone: Option<string>)
    ensures WithDefaultZone(p, defaultZone) != p <==> "z" in p && p["z"] == Null && defaultZone.Some?
  {
  }

  /** Defaulting twice sends the same fields as defaulting once. */
  lemma DefaultingIdempotent(p: Params, defaultZone: Option<string>)
    ensures WithDefaultZone(WithDefaultZone(p, defaultZone), defaultZone) == WithDefaultZone(p, defaultZone)
  {
  }

  /**
   Outcome classification: a status of 200 returns the body exactly as
   received; any other status discards the body and returns the error object
   built from the transport's error string.
   */
  function Classify(reply: Reply): (r: ApiResult)
    ensures r.Body? <==> reply.status == 200
    ensures r.Body? ==> r.text == reply.body
    ensures r.ErrorJson? ==> r.message == reply.error
  {
    if reply.status != 200 then ErrorJson(reply.error) else Body(reply.body)
  }

  /** The audit-log file: `<dir>cloudflare_<action>-<date>.txt`, the directory carrying its own trailing slash. */
  function LogFileName(dir: string, action: string, date: string): (r: string)
    ensures |r| == |dir| + |action| + |date| + 16
    ensures r[..|dir|] == dir && r[|dir|..|dir| + 11] == "cloudflare_"
    ensures r[|dir| + 11..|dir| + 11 + |action|] == action
    ensures r[|dir| + 11 + |action|] == '-'
    ensures r[|dir| + 12 + |action|..|r| - 4] == date
    ensures r[|r| - 4..] == ".txt"
  {
    dir + "cloudflare_" + action + "-" + date + ".txt"
  }

  /**
   Per-action, per-day files: with a date format of fixed width (Y-m-d), two
   dispatches share a log file only when their actions and dates agree.
   */
  lemma LogFileNameInjective(dir: string, a1: string, d1: string, a2: string, d2: string)
    requires |d1| == |d2|
    ensures LogFileName(dir, a1, d1) == LogFileName(dir, a2, d2) <==> a1 == a2 && d1 == d2
  {
  }

  /** The file named for the "stats" action on 2024-03-05. */
  lemma StatsLogFileName(dir: string)
    ensures LogFileName(dir, "stats", "2024-03-05") == dir + "cloudflare_stats-2024-03-05.txt"
  {
  }

  /**
   One dispatch of the parameters `params` with the transport's reply as an
   input: the defaulted copy is what is sent, the classified outcome is what is
   returned, and when a log directory is configured exactly that result is
   appended to the file named from the `a` parameter and the date.
   */
  function Dispatch(params: Params, defaultZone: Option<string>, logPath: Option<string>,
                    reply: Reply, date: string): (e: Exchange)
    ensures e.url == ApiUrl
    ensures e.fields == WithDefaultZone(params, defaultZone)
    ensures e.result == Classify(reply)
    ensures e.log.Some? <==> logPath.Some?
    ensures e.log.Some? ==> e.log.value.data == e.result
    ensures e.log.Some? ==> e.log.value.file == LogFileName(logPath.value, Text(Lookup(params, "a")), date)
  {
    var fields := WithDefaultZone(params, defaultZone);
    var result := Classify(reply);
    var log := match logPath
      case None => None
      case Some(dir) => Some(LogWrite(LogFileName(dir, Text(Lookup(fields, "a")), date), result));
    Exchange(ApiUrl, fields, result, log)
  }

  /** A non-200 reply never reaches the caller: the result is the error object whatever the body held. */
  lemma ErrorDiscardsBody(params: Params, defaultZone: Option<string>, logPath: Option<string>,
                          reply: Reply, date: string)
    requires reply.status != 200
    ensures Dispatch(params, defaultZone, logPath, reply, date).result == ErrorJson(reply.error)
    ensures Dispatch(params, defaultZone, logPath, reply, date).result
         == Dispatch(params, defaultZone, logPath, reply.(body := ""), date).result
  {
  }
}

=== FILE: wire.dfy ===
/**
 The values the Cloudflare client library passes around: request parameters,
 the reply of one HTTP round trip, the result handed back to the caller and the
 audit-log record written for it.
 */
module Wire {

  datatype Option<T> = None | Some(value: T)

  /** A parameter value as the PHP array holds it: a string, an integer or NULL. */
  datatype Value = Str(s: string) | Int(i: int) | Null

  /** The request parameters (`_params`): parameter name to value. */
  type Params = map<string, Value>

  /** The fixed endpoint every request is POSTed to (`_api_url`). */
  const ApiUrl: string := "https://www.cloudflare.com/api_json.html?"

  /**
   What the transport reports for one POST: the HTTP status code, the body it
   returned and cURL's error string (empty when there was none).
   */
  datatype Reply = Reply(status: int, body: string, error: string)

  /**
   What `_request` returns: the raw body of a 200 reply, or the JSON object
   `{"error": <message>}` it builds otherwise (its JSON text is not modelled).
   */
  datatype ApiResult = Body(text: string) | ErrorJson(message: string)

  /** One append to the audit log: the file name and the data written. */
  datatype LogWrite = LogWrite(file: string, data: ApiResult)

  /** One dispatch: where it went, the fields it sent, what it returned and what it logged. */
  datatype Exchange = Exchange(url: string, fields: Params, result: ApiResult, log: Option<LogWrite>)

  /** The parameter value for a zone argument that defaults to NULL. */
  function ZoneValue(zone: Option<string>): Value
  {
    match zone
    case None => Null
    case Some(z) => Str(z)
  }

  /** `$params[$key]`: the stored value, or NULL when the key is absent. */
  function Lookup(p: Params, key: string): Value
  {
    if key in p then p[key] else Null
  }

  /** PHP's `isset($params[$key])`: present and not NULL. */
  predicate IsSet(p: Params, key: string)
  {
    key in p && p[key] != Null
  }

  /** The decimal digits of a natural number, most significant first. */
  function Digits(n: nat): (r: string)
    ensures |r| > 0
    ensures forall i :: 0 <= i < |r| ==> '0' <= r[i] <= '9'
    decreases n
  {
    var d := [(48 + n % 10) as char];
    if n < 10 then d else Digits(n / 10) + d
  }

  /** The number a string of decimal digits denotes. */
  function DigitsValue(s: string): nat
    requires forall i :: 0 <= i < |s| ==> '0' <= s[i] <= '9'
    decreases |s|
  {
    if s == [] then 0 else DigitsValue(s[..|s| - 1]) * 10 + (s[|s| - 1] as int - 48)
  }

  /** `Digits` writes exactly the number it is given. */
  lemma {:induction false} DigitsDenote(n: nat)
    ensures DigitsValue(Digits(n)) == n
    decreases n
  {
    var r := Digits(n);
    if n >= 10 {
      DigitsDenote(n / 10);
      assert r[..|r| - 1] == Digits(n / 10);
    }
  }

  /**
   The string PHP's `.` operator makes of a value: a string is itself, NULL is
   empty, and an integer is written in decimal, with a leading minus sign when
   it is negative, so that the text denotes exactly that integer.
   */
  function Text(v: Value): (r: string)
    ensures v.Int? && v.i >= 0 ==>
      (forall k :: 0 <= k < |r| ==> '0' <= r[k] <= '9') && DigitsValue(r) == v.i
    ensures v.Int? && v.i < 0 ==>
      |r| > 1 && r[0] == '-' && (forall k :: 1 <= k < |r| ==> '0' <= r[k] <= '9') && DigitsValue(r[1..]) == -v.i
  {
    match v
    case Str(s) => s
    case Int(i) =>
      if i < 0 then
        DigitsDenote(-i);
        assert ("-" + Digits(-i))[1..] == Digits(-i);
        "-" + Digits(-i)
      else
        DigitsDenote(i);
        Digits(i)
    case Null => ""
  }
}
